=== FILE: README.md ===
# Save_bot relay core in Dafny

This project models the decision logic of `bot.py`, a Telegram bot that relays media. The bot logs a user account in by phone through Telethon. It reads a `t.me` message link sent by its owner, downloads that message's attachment into a temporary file, and re-uploads the file through the Bot API. The model covers five parts:

- **Media classifier** (module `Classifier`). It gives the extension of the staged file, the Bot API upload kind, and the size the server advertises for an attachment.
- **Link parser** (module `Links`). It is the first match of `(?:https?://)?t\.me/([^/]+)/(\d+)`, found the way `re.findall` scans, with the digits read by `int`. The optional scheme is modelled with the same backtracking order as the regex engine. A lemma shows that the scheme never moves the captures.
- **Transfer guards and pipeline** (module `Transfer`). This covers the size ceiling, staging of the temporary file, truncation of the caption to 1024 characters, the choice of upload endpoint, the clean-up of the staged file, and the dispatch in `handle_message`.
- **Login** (module `Login`). These are the manager fields `client`, `is_connected`, `phone_number` and `phone_code_hash`, with the updates that `connect_with_phone` and `verify_code` make. It also covers the PHONE/CODE/END conversation run by `login_command`, `phone_handler`, `code_handler` and `cancel_command`.
- **Text primitives** (module `Text`). These are `str.strip()` over Python's white-space set and the substring test `word in s`.

Every call into Telethon, the Bot API or the file system that the model keeps is a parameter of the model; the ones it leaves out are listed under "## Left out". It either returns (with its value) or raises (with its message). The file system is the set of paths that exist.

Facts about `bot.py` that the model keeps:
- `PASSWORD` (bot.py:36) is defined, but no handler uses it. The conversation has no second-factor password step.
- The docstring of `process_media_download` (bot.py:367) promises progress updates. The only updates are the fixed status texts. No transfer rate or remaining time is computed.
- The classifier (bot.py:180-207) knows photos, videos and documents. It has no audio kind.
- The size ceiling is checked before staging, against the size the message advertises (bot.py:143-152). The size of the written file is never compared with the ceiling.
- The parser (bot.py:422-432) does not map `t.me/c/<id>/<msg>` to a channel id. It reads chat identifier "c" and uses `<id>` as the message id (`Links.PrivateChannelLink`).
- A public username is passed to `get_messages` as it is, without an `@` (bot.py:431).
- A failed write does not clean up the staged file (see Findings).
- `process_media_download` awaits the replies of the synchronous Bot API (see Findings).

## Model

| member | source | states |
|---|---|---|
| Text.Strip | bot.py:420 | the result is the input with a white-space prefix and a white-space suffix removed, and it neither starts nor ends with white space |
| Text.ContainsIsSubstring | bot.py:188-192 | the search answers true exactly when the word occurs at some index of the string, which is Python's `in` on strings |
| Classifier.FileExtension | bot.py:180-195 | the extension is one of ".jpg", ".mp4", ".pdf", ".bin"; a photo gives ".jpg", a video ".mp4", and a kind that is neither photo, video nor document ".bin" |
| Classifier.MediaType | bot.py:197-207 | the upload kind is one of "photo", "video", "document", and it is "photo" exactly for a photo |
| Classifier.EmptyMimeIsMissing | bot.py:187-204 | a document whose MIME type is the empty string gets the same extension and the same upload kind as one without a MIME type |
| Classifier.AdvertisedSize | bot.py:144-149 | a document advertises its own size, a photo the size of its last size entry; a video, any other kind and a photo without size entries advertise 0 |
| Classifier.MediaTypeSpec | bot.py:197-207 | the upload kind is "photo", "video" or "document"; it is "photo" exactly for a photo and "video" exactly for a video or a document whose MIME type is present and contains "video" |
| Classifier.FileExtensionSpec | bot.py:180-195 | the extension is ".jpg", ".mp4", ".pdf" or ".bin"; the MIME substrings are tried in the order image, video, pdf; a missing or unmatched MIME type gives ".bin" |
| Links.SegmentEnd | bot.py:423 | `[^/]+` ends at the first '/' at or after the start, or at the end of the text |
| Links.DigitsEnd | bot.py:423 | `\d+` ends at the first non-digit at or after the start, or at the end of the text |
| Links.BodyAtSpec | bot.py:423 | the pattern without its scheme matches at a position exactly when `t.me/<chat>/<digits>` sits there, with a non-empty chat free of '/' and a maximal non-empty run of digits |
| Links.BodyAtNone | bot.py:423 | the pattern body fails at a position exactly when no link starts there |
| Links.MatchAtSpec | bot.py:423 | a match of the whole pattern, with or without the optional http(s) scheme, captures the first link that starts at or after the match start |
| Links.FindFromNone | bot.py:424-428 | the scan finds nothing exactly when no link starts anywhere from the scan start on |
| Links.FindFromSome | bot.py:424-431 | the scan returns the leftmost link |
| Links.ParseLink | bot.py:422-432 | a parsed link has a non-empty chat identifier that contains no '/' |
| Links.ParseLinkSpec | bot.py:423-432 | the parser rejects exactly the texts without a link; otherwise it returns the leftmost link, whose chat identifier is non-empty and free of '/' and whose id is the value of its digits |
| Links.DecimalRoundTrip | bot.py:432 | `int` of the decimal digits of n is n |
| Links.ParseLinkLeading | bot.py:423-432 | a text that starts with `https://t.me/<chat>/<digits>`, where no digit follows, parses to that chat and the value of those digits |
| Links.ParseLinkRoundTrip | bot.py:423-432 | `https://t.me/<chat>/<n>` parses back to chat and n |
| Links.PrivateChannelLink | bot.py:423-432 | `https://t.me/c/<channel>/<message>` parses to chat "c" with the channel number as the message id |
| Links.LinkWithoutIdRejected | bot.py:423-428 | `https://t.me/<chat>` with no message id is rejected |
| Login.ConnectWithPhone | bot.py:103-116 | the call succeeds exactly when a client exists or is created, connects, and the code request returns; success stores the phone and the returned hash; a failure keeps the old hash; the phone is stored once `connect` returns, even when the code request then fails; `is_connected` is untouched |
| Login.VerifyCode | bot.py:118-133 | with no client or no pending hash it returns "No active authentication session" without sending anything and without changing any field; otherwise it signs in with the stored phone and hash; `is_connected` becomes true exactly when that sign-in returns, and nothing else changes |
| Login.LoginState | bot.py:262-272 | `/login` opens the PHONE state exactly when the manager is not connected, and otherwise ends |
| Login.PhoneStep | bot.py:274-296 | the phone step stays in PHONE exactly when its reply raises; it moves to CODE exactly when the reply goes out and a client exists or is created, connects, and the code request returns; the manager is what `connect_with_phone` leaves, with `is_connected` untouched |
| Login.CodeStep | bot.py:298-318 | the code step ends the conversation unless its reply raises, which keeps it in CODE; `is_connected` becomes true exactly when a client and a pending hash exist and the sign-in returns; no other field changes |
| Login.Step | bot.py:262-323 | a handler whose reply raises leaves the conversation state unchanged; only a text message while PHONE or CODE is active changes the manager; `/cancel` whose reply goes out ends the conversation |
| Login.Transitions | bot.py:262-323 | `/login` leaves END only for PHONE, only when not connected and when its reply goes out; CODE is reached only from PHONE when the code request succeeds and the reply goes out, and CODE is kept on `/login` or on a raising reply; a code message whose reply goes out ends the conversation; a raising reply never moves the state |
| Login.ConnectedOnlyBySignIn | bot.py:118-130 | `is_connected` is never cleared, and it is set only by a successful sign-in from the CODE state with a client and a pending hash |
| Login.CodePairsPhoneAndHash | bot.py:274-296 | CODE is entered only by a phone message whose code request returned, with that stripped phone and the returned hash stored together, and neither changes while CODE lasts |
| Login.StartValid | bot.py:76-84 | the fresh manager satisfies the session invariant |
| Login.StepKeepsValid | bot.py:103-133 | every event keeps the session invariant: a stored hash comes with a client and a phone number, CODE has a stored hash, and a connected manager has a client |
| Login.RunKeepsValid | bot.py:443-450 | every session reachable from the start satisfies the invariant |
| Login.SignInCarriesPhone | bot.py:124-128 | in a reachable session a sign-in is never sent with a missing phone number |
| Login.ConnectedRunSignedIn | bot.py:118-130 | a run that starts disconnected and ends connected contains a successful sign-in sent from the CODE state |
| Transfer.TruncateCaption | bot.py:386 | the caption is the first min(length, 1024) characters of the text, so it is a prefix of the text; an empty text gives "" |
| Transfer.LongCaptionCut | bot.py:386 | a 2000-character caption becomes exactly its first 1024 characters |
| Transfer.PlanUpload | bot.py:333-359 | kind "photo" goes to `send_photo`, "video" to `send_video` with streaming on, and any other kind to `send_document`; the caption is passed unchanged; files above 50 MiB get a notice first |
| Transfer.UploadEndpointMatchesMedia | bot.py:338-359 | after classification, a photo is sent as a photo, a video or video document as a streaming video, and everything else as a document |
| Transfer.Admit | bot.py:138-152 | a file is admitted exactly when the message exists, has media, and the advertised size is at most 1 GiB; it is refused as too large exactly when the advertised size exceeds 1 GiB |
| Transfer.SizeCeilingBoundary | bot.py:32 | a document of exactly 1073741824 bytes passes the guard and one of 1073741825 bytes is refused |
| Transfer.SizelessMediaPassesGuard | bot.py:143-152 | a video, any other kind and a photo without size entries always pass the size guard, whatever their real size |
| Transfer.DownloadMediaAsWritten | bot.py:135-178 | the download succeeds exactly when the file is admitted, the temporary file is created and then written; if creating it raises, no file exists; once created, the staged path exists afterwards whether or not the write succeeded |
| Transfer.DownloadMedia | bot.py:135-178 | as above, but a failed download leaves no staged file and touches no other path |
| Transfer.Deliver | bot.py:379-415 | after a download the staged file is removed whatever the upload did, and a failed download leaves the files as they were; `upload_large_file` is invoked exactly when the download succeeded and the status edit went through; "delivered" is reported exactly when that call returns success, with the downloaded size |
| Transfer.ProcessMediaDownload | bot.py:366-415 | the message is fetched only when logged in and after the "Starting download" reply went out; no staged file outlives the request and no other file is touched; `upload_large_file` is invoked exactly when that reply went out and the file was admitted, created, written and the status edit went through; "delivered" is reported exactly when that call returns success |
| Transfer.ProcessMediaDownloadAsWritten | bot.py:366-415 | the message is fetched only when logged in and after the first reply went out; after a successful download the staged file is gone, whether the upload succeeded, failed or the status edit raised; the only file that can remain is the staged file of a failed write |
| Transfer.UploadCarriesMessage | bot.py:383-398 | when `upload_large_file` is invoked, its plan uses the endpoint for the attachment's kind and a caption that is a prefix of the message text of at most 1024 characters, equal to the text when the text is short enough |
| Transfer.StagedFileLeaksOnWriteFailure | bot.py:154-178 | for a geo point, whose write raises, `download_media` as written reports a failure and leaves the staged file on disk; through `process_media_download` the same holds once the "Starting download" reply goes out, that is, with the await of the second finding removed |
| Transfer.HandleMessage | bot.py:418-440 | a text without a link is refused with nothing fetched and no file touched; otherwise, when logged in and the first reply went out, the first link in the stripped text is what gets fetched; `upload_large_file` is invoked exactly when there is a link and the request reaches it; no file outlives the request |
| Transfer.HandleMessageDelivers | bot.py:366-415 | when every reply, the fetch, the creation and the write of the temporary file, the status edit and the upload go through, a logged-in message with a link to an admitted attachment is delivered with the written size, and the staged file is gone |
| Transfer.HandleMessageAsWritten | bot.py:374 | awaiting the synchronous reply raises, so no message is fetched, `upload_large_file` is never invoked, nothing is delivered and no file changes |
| Transfer.AwaitedReplyBlocksRequest | bot.py:369-374 | a logged-in request for `https://t.me/news/42` ends in the exception handler with nothing fetched |

## Findings

| source | as written | input that shows it | evidently intended | confidence | as-written member | corrected member |
|---|---|---|---|---|---|---|
| bot.py:154-178 | the temporary file is created with `delete=False` before `client.download_media`; when that call or `os.path.getsize` raises, the `except` branch returns an error without removing the file, and `process_media_download` has no path to remove it | `download_media` called for a message holding a geo point (or a web-page preview with neither photo nor document): the client returns None, `os.path.getsize(None)` raises, and the empty temporary file stays on disk; through `handle_message` this is reached only once the await of the second row is removed, since as written the request stops at the "Starting download" reply | the staged file is removed on every exit path, as the clean-up after upload and in the exception handler of `process_media_download` does | medium, not executed | Transfer.StagedFileLeaksOnWriteFailure | Transfer.ProcessMediaDownload |
| bot.py:369-415 | `process_media_download` runs on an asyncio loop and writes `await update.message.reply_text(...)`; the bot is built on the synchronous python-telegram-bot 13 API (`Updater(..., use_context=True)`, `Filters`), whose `reply_text` returns a `Message`, so the `await` raises `TypeError` and the handler in the `except` branch raises again on its own awaited reply | `https://t.me/news/42` sent while logged in: the "Starting download" reply is sent, the `await` raises, and the message is never fetched | the replies are called without `await`, as `phone_handler` and `code_handler` do, and the request goes on to the fetch | medium, not executed | Transfer.HandleMessageAsWritten | Transfer.HandleMessage |

`Transfer.DownloadMediaAsWritten` and `Transfer.ProcessMediaDownloadAsWritten` model the first row as written. `Transfer.DownloadMedia` removes the staged file when writing raises. `Transfer.ProcessMediaDownload` and `Transfer.HandleMessage` use that corrected download.

For the second row, the "Starting download" reply is a parameter of `Transfer.Env`. `Transfer.HandleMessageAsWritten` fixes it to the `TypeError` the await raises. `Transfer.HandleMessage` leaves it open, and `Transfer.HandleMessageDelivers` shows that a reply which goes out leads on to delivery.

## Left out

- The Flask liveness endpoints, the start-up and shutdown code, logging, the owner-only check, and the welcome and status texts. They are I/O, process lifecycle or user interface.
- The network and file-system calls themselves (`connect`, `send_code_request`, `sign_in`, `get_messages`, `NamedTemporaryFile`, `download_media`, `send_*`, `unlink`). Each is an opaque outcome handed in by the caller. Removing a file is assumed to succeed.
- The two calls inside `upload_large_file` (bot.py:327-365) are one outcome. For a file above 50 MiB the notice goes first; when it raises, no `send_*` call is made and the upload fails. The model records the plan `upload_large_file` is invoked with, not whether its `send_*` call was reached.
- The event-loop bridging in each handler and the thread-locked singleton construction. Both are about concurrency. The model treats the manager as one value that each event updates in turn.
- The float formatting of sizes in status texts. The text of the error replies is left out too, except the fixed messages of `verify_code` and `connect_with_phone`.
- Replies and status edits whose failure changes neither the files nor what is fetched. These are the "not logged in" reply, the "Download failed" edit, the edit that closes a request, and the reply of the exception handler. The "Starting download" reply is modelled, because it comes before the fetch. The "Downloaded ... Uploading now" edit is modelled, because its failure takes the exception path while the staged file exists. The replies of `login_command`, `phone_handler`, `code_handler` and `cancel_command` are modelled, because a raising reply keeps the conversation state.
- `start_services` creating the client at start-up. The model starts without a client. `connect_with_phone` creates one on demand, and `initOk` says whether creating it succeeds.
- Links.DigitsEnd: `\d` is modelled as the ASCII digits only. Python also matches other Unicode decimal digits there, and `int` accepts them.
- Classifier.AdvertisedSize: the model gives every document and every photo size entry a size. A Telethon `Document` carries a size, though an empty or missing document does not; the photo size types without a `size` field (progressive, stripped and cached renditions) do not; when such an entry is the last of `photo.sizes`, reading its size at bot.py:147 raises and `download_media` returns an error, which the model cannot express. Progressive renditions are commonly last, so this may cover many photos.
- The name of the temporary file is a parameter. The model does not check that it ends with the chosen extension. The parameter is assumed fresh wherever a lemma needs that, as `tempfile` guarantees.
- The conversation is keyed by chat and user in the library. With a single owner it is modelled as one conversation. Conversation timeouts are not configured in the code, so none are modelled.

=== FILE: classifier.dfy ===
/** The media classifier of `TelethonManager` in bot.py: from the kind of
    a message's attachment and its declared MIME type, the file extension
    of the staged file, the Bot API upload kind, and the size the server
    advertises for it. */
module Classifier {
  import opened Wrappers
  import opened Text

  /** A message attachment, by the Telethon class it arrives as. */
  datatype Media =
    | MediaPhoto(sizes: seq<nat>)                          // `photo.sizes`, largest rendition last
    | MediaVideo                                           // carries neither `document` nor `photo`
    | MediaDocument(mimeType: Option<string>, size: nat)   // `document.mime_type`, `document.size`
    | MediaOther                                           // web page, geo point, contact, poll, ...

  /** The attachment is a document whose MIME type is present and mentions `word`. */
  ghost predicate MimeMentions(m: Media, word: string) {
    m.MediaDocument? && m.mimeType.Some? && IsSubstring(word, m.mimeType.value)
  }

  /** `_get_file_extension`: the suffix given to the staged file. */
  function FileExtension(m: Media): (r: string)
    ensures r in {".jpg", ".mp4", ".pdf", ".bin"}
    ensures m.MediaPhoto? ==> r == ".jpg"
    ensures m.MediaVideo? ==> r == ".mp4"
    ensures m.MediaOther? ==> r == ".bin"
  {
    match m
    case MediaPhoto(_) => ".jpg"
    case MediaVideo => ".mp4"
    case MediaDocument(mime, _) =>
      if mime.Some? && mime.value != "" then
        if Contains(mime.value, "image") then ".jpg"
        else if Contains(mime.value, "video") then ".mp4"
        else if Contains(mime.value, "pdf") then ".pdf"
        else ".bin"
      else ".bin"
    case MediaOther => ".bin"
  }

  /** `_get_media_type`: the Bot API kind the file is uploaded as. */
  function MediaType(m: Media): (r: string)
    ensures r in {"photo", "video", "document"}
    ensures r == "photo" <==> m.MediaPhoto?
  {
    match m
    case MediaPhoto(_) => "photo"
    case MediaVideo => "video"
    case MediaDocument(mime, _) =>
      if mime.Some? && mime.value != "" && Contains(mime.value, "video") then "video" else "document"
    case MediaOther => "document"
  }

  /** The attachment is uploaded as a video. */
  ghost predicate IsVideo(m: Media) {
    m.MediaVideo? || MimeMentions(m, "video")
  }

  /** The upload kind is one of three, and each is chosen exactly when the
      attachment has the matching shape. */
  lemma MediaTypeSpec(m: Media)
    ensures MediaType(m) in {"photo", "video", "document"}
    ensures MediaType(m) == "photo" <==> m.MediaPhoto?
    ensures MediaType(m) == "video" <==> IsVideo(m)
    ensures MediaType(m) == "document" <==> (m.MediaDocument? && !IsVideo(m)) || m.MediaOther?
  {
    if m.MediaDocument? && m.mimeType.Some? {
      ContainsIsSubstring(m.mimeType.value, "video");
    }
  }

  /** The extension is one of four, chosen by the MIME substrings in the
      priority order image, video, pdf, with ".bin" as the fallback. */
  lemma FileExtensionSpec(m: Media)
    ensures FileExtension(m) in {".jpg", ".mp4", ".pdf", ".bin"}
    ensures FileExtension(m) == ".jpg" <==> m.MediaPhoto? || MimeMentions(m, "image")
    ensures FileExtension(m) == ".mp4" <==>
              m.MediaVideo? || (MimeMentions(m, "video") && !MimeMentions(m, "image"))
    ensures FileExtension(m) == ".pdf" <==>
              MimeMentions(m, "pdf") && !MimeMentions(m, "image") && !MimeMentions(m, "video")
    ensures FileExtension(m) == ".bin" <==>
              m.MediaOther?
              || (m.MediaDocument? && !MimeMentions(m, "image") && !MimeMentions(m, "video")
                  && !MimeMentions(m, "pdf"))
  {
    if m.MediaDocument? && m.mimeType.Some? {
      ContainsIsSubstring(m.mimeType.value, "image");
      ContainsIsSubstring(m.mimeType.value, "video");
      ContainsIsSubstring(m.mimeType.value, "pdf");
    }
  }

  /** The size `download_media` reads before staging: the document's size,
      the last (largest) photo rendition's size, and 0 when neither exists. */
  function AdvertisedSize(m: Media): (r: nat)
    ensures m.MediaDocument? ==> r == m.size
    ensures m.MediaPhoto? && |m.sizes| > 0 ==> r == m.sizes[|m.sizes| - 1]
    ensures m.MediaVideo? || m.MediaOther? || (m.MediaPhoto? && |m.sizes| == 0) ==> r == 0
  {
    match m
    case MediaPhoto(sizes) => if |sizes| > 0 then sizes[|sizes| - 1] else 0
    case MediaDocument(_, size) => size
    case _ => 0
  }

  /** An empty MIME type is falsy in Python, and the attachment is
      classified as if it had none. */
  lemma EmptyMimeIsMissing(size: nat)
    ensures FileExtension(MediaDocument(Some(""), size)) == FileExtension(MediaDocument(None, size))
    ensures MediaType(MediaDocument(Some(""), size)) == MediaType(MediaDocument(None, size))
  {
  }
}

=== FILE: links.dfy ===
/** The message-link parser of `handle_message` in bot.py: the first match
    of `(?:https?://)?t\.me/([^/]+)/(\d+)` in the text, found the way
    `re.findall` scans, with its second group read by `int`. */
module Links {
  import opened Wrappers

  predicate IsDigit(c: char) {
    '0' <= c <= '9'
  }

  /** The two groups of one match, and where its `t.me/` starts. */
  datatype Captures = Captures(pos: nat, chat: string, digits: string)

  /** What the bot goes on to fetch: a chat identifier and a message id. */
  datatype Link = Link(chat: string, messageId: nat)

  /** The end of the run of characters other than '/' that starts at `i`:
      what the greedy `[^/]+` consumes. */
  function SegmentEnd(s: string, i: nat): (j: nat)
    requires i <= |s|
    ensures i <= j <= |s|
    ensures forall k :: i <= k < j ==> s[k] != '/'
    ensures j < |s| ==> s[j] == '/'
    decreases |s| - i
  {
    if i == |s| || s[i] == '/' then i else SegmentEnd(s, i + 1)
  }

  /** The end of the run of digits that starts at `i`: what the greedy
      `\d+` consumes. */
  function DigitsEnd(s: string, i: nat): (j: nat)
    requires i <= |s|
    ensures i <= j <= |s|
    ensures forall k :: i <= k < j ==> IsDigit(s[k])
    ensures j < |s| ==> !IsDigit(s[j])
    decreases |s| - i
  {
    if i == |s| || !IsDigit(s[i]) then i else DigitsEnd(s, i + 1)
  }

  predicate StartsAt(s: string, i: nat, word: string) {
    i + |word| <= |s| && s[i..i + |word|] == word
  }

  /** The regular expression without its optional scheme, tried at `q`. */
  function BodyAt(s: string, q: nat): Option<Captures>
    requires q <= |s|
  {
    if StartsAt(s, q, "t.me/") then
      var e := SegmentEnd(s, q + 5);
      if e == q + 5 || e == |s| then None
      else
        var d := DigitsEnd(s, e + 1);
        if d == e + 1 then None else Some(Captures(q, s[q + 5..e], s[e + 1..d]))
    else None
  }

  /** The whole regular expression tried at `p`: the greedy optional group
      is tried first with "https://", then with "http://", then left out. */
  function MatchAt(s: string, p: nat): Option<Captures>
    requires p <= |s|
  {
    if StartsAt(s, p, "https://") && BodyAt(s, p + 8).Some? then BodyAt(s, p + 8)
    else if StartsAt(s, p, "http://") && BodyAt(s, p + 7).Some? then BodyAt(s, p + 7)
    else BodyAt(s, p)
  }

  /** The first match that starts at `p` or later. */
  function FindFrom(s: string, p: nat): Option<Captures>
    requires p <= |s|
    decreases |s| - p
  {
    if p == |s| then MatchAt(s, p)
    else if MatchAt(s, p).Some? then MatchAt(s, p)
    else FindFrom(s, p + 1)
  }

  /** `int(digits)` for a string of ASCII digits. */
  function DecimalValue(digits: string): nat {
    if |digits| == 0 then 0
    else DecimalValue(digits[..|digits| - 1]) * 10 + (digits[|digits| - 1] as int - '0' as int) % 10
  }

  /** `str(n)`: the decimal digits of `n`. */
  function DecimalString(n: nat): (r: string)
    ensures |r| > 0
    ensures forall k :: 0 <= k < |r| ==> IsDigit(r[k])
  {
    var last := [('0' as int + n % 10) as char];
    if n < 10 then last else DecimalString(n / 10) + last
  }

  /** `re.findall(...)[0]` followed by `int(message_id)`, or None when
      the text holds no link. */
  function ParseLink(text: string): (r: Option<Link>)
    ensures r.Some? ==> |r.value.chat| > 0 && forall k :: 0 <= k < |r.value.chat| ==> r.value.chat[k] != '/'
  {
    match FindFrom(text, 0)
    case None => None
    case Some(c) =>
      FindFromSome(text, 0);
      Some(Link(c.chat, DecimalValue(c.digits)))
  }

  // ---------------------------------------------------------------------
  // The declarative reading of the pattern.

  /** `s` holds `t.me/<chat>/<digits>` at `q`, where `chat` is a non-empty
      run without '/' and `digits` a non-empty run of digits that is not
      followed by another digit. */
  ghost predicate LinkAt(s: string, q: int, chat: string, digits: string) {
    var e := q + 5 + |chat|;
    var d := e + 1 + |digits|;
    && 0 <= q && d <= |s|
    && s[q..q + 5] == "t.me/"
    && s[q + 5..e] == chat
    && s[e] == '/'
    && s[e + 1..d] == digits
    && |chat| > 0 && (forall k :: 0 <= k < |chat| ==> chat[k] != '/')
    && |digits| > 0 && (forall k :: 0 <= k < |digits| ==> IsDigit(digits[k]))
    && (d == |s| || !IsDigit(s[d]))
  }

  ghost predicate NoLinkAt(s: string, q: int) {
    forall chat, digits :: !LinkAt(s, q, chat, digits)
  }

  /** A link sitting at `q` is what the pattern's body captures there. */
  lemma LinkAtFound(s: string, q: nat, chat: string, digits: string)
    requires q <= |s|
    requires LinkAt(s, q, chat, digits)
    ensures BodyAt(s, q) == Some(Captures(q, chat, digits))
  {
    var e := q + 5 + |chat|;
    assert forall k :: q + 5 <= k < e ==> s[k] == chat[k - q - 5];
    assert SegmentEnd(s, q + 5) == e;
    var d := e + 1 + |digits|;
    assert forall k :: e + 1 <= k < d ==> s[k] == digits[k - e - 1];
    assert DigitsEnd(s, e + 1) == d;
  }

  /** What the pattern's body captures at `q` is a link sitting at `q`. */
  lemma FoundIsLinkAt(s: string, q: nat)
    requires q <= |s|
    requires BodyAt(s, q).Some?
    ensures BodyAt(s, q).value.pos == q
    ensures LinkAt(s, q, BodyAt(s, q).value.chat, BodyAt(s, q).value.digits)
  {
    var e := SegmentEnd(s, q + 5);
    var d := DigitsEnd(s, e + 1);
    var chat := s[q + 5..e];
    var digits := s[e + 1..d];
    assert BodyAt(s, q) == Some(Captures(q, chat, digits));
    assert forall k :: 0 <= k < |chat| ==> chat[k] == s[q + 5 + k];
    assert forall k :: 0 <= k < |digits| ==> digits[k] == s[e + 1 + k];
    assert s[q..q + 5] == "t.me/";
  }

  /** Trying the pattern's body at `q` finds exactly the link that sits there. */
  lemma BodyAtSpec(s: string, q: nat, chat: string, digits: string)
    requires q <= |s|
    ensures BodyAt(s, q) == Some(Captures(q, chat, digits)) <==> LinkAt(s, q, chat, digits)
  {
    if LinkAt(s, q, chat, digits) {
      LinkAtFound(s, q, chat, digits);
    }
    if BodyAt(s, q) == Some(Captures(q, chat, digits)) {
      FoundIsLinkAt(s, q);
    }
  }

  /** The body fails at `q` exactly when no link starts at `q`. */
  lemma BodyAtNone(s: string, q: nat)
    requires q <= |s|
    ensures BodyAt(s, q).None? <==> NoLinkAt(s, q)
  {
    if BodyAt(s, q).None? {
      forall chat, digits ensures !LinkAt(s, q, chat, digits) {
        BodyAtSpec(s, q, chat, digits);
      }
    } else {
      var c := BodyAt(s, q).value;
      BodyAtSpec(s, q, c.chat, c.digits);
      assert LinkAt(s, q, c.chat, c.digits);
    }
  }

  lemma LinkStartsWithHost(s: string, q: int, chat: string, digits: string)
    ensures LinkAt(s, q, chat, digits) ==> 0 <= q && q + 1 < |s| && s[q] == 't' && s[q + 1] == '.'
  {
    if LinkAt(s, q, chat, digits) {
      assert s[q..q + 5][0] == 't' && s[q..q + 5][1] == '.';
    }
  }

  /** Inside a scheme prefix no `t.me/` can start. */
  lemma NoLinkInsideScheme(s: string, p: nat, scheme: string, q: nat)
    requires scheme == "https://" || scheme == "http://"
    requires StartsAt(s, p, scheme)
    requires p <= q < p + |scheme| && q <= |s|
    ensures NoLinkAt(s, q)
  {
    assert s[p..p + |scheme|] == scheme;
    assert forall k :: p <= k < p + |scheme| ==> s[k] == scheme[k - p];
    assert !(q + 1 < |s| && s[q] == 't' && s[q + 1] == '.');
    forall chat, digits ensures !LinkAt(s, q, chat, digits) {
      LinkStartsWithHost(s, q, chat, digits);
    }
  }

  /** A match of the whole pattern at `p` captures the link whose `t.me/`
      is the first one at or after `p`: the optional scheme never moves the
      captures. Without a match at `p`, no link starts at `p`. */
  lemma {:induction false} MatchAtSpec(s: string, p: nat)
    requires p <= |s|
    ensures MatchAt(s, p).None? ==> NoLinkAt(s, p)
    ensures MatchAt(s, p).Some? ==>
              var c := MatchAt(s, p).value;
              && p <= c.pos <= |s|
              && LinkAt(s, c.pos, c.chat, c.digits)
              && forall q :: p <= q < c.pos ==> NoLinkAt(s, q)
  {
    BodyAtNone(s, p);
    var r := MatchAt(s, p);
    if r.Some? {
      var c := r.value;
      assert c.pos <= |s|;
      BodyAtSpec(s, c.pos, c.chat, c.digits);
      if StartsAt(s, p, "https://") && BodyAt(s, p + 8).Some? {
        forall q | p <= q < c.pos ensures NoLinkAt(s, q) {
          NoLinkInsideScheme(s, p, "https://", q);
        }
      } else if StartsAt(s, p, "http://") && BodyAt(s, p + 7).Some? {
        forall q | p <= q < c.pos ensures NoLinkAt(s, q) {
          NoLinkInsideScheme(s, p, "http://", q);
        }
      }
    }
  }

  /** The scan from `p` finds nothing exactly when no link starts at or after `p`. */
  lemma {:induction false} FindFromNone(s: string, p: nat)
    requires p <= |s|
    ensures FindFrom(s, p).None? <==> forall q :: p <= q <= |s| ==> NoLinkAt(s, q)
    decreases |s| - p
  {
    MatchAtSpec(s, p);
    if p < |s| && MatchAt(s, p).None? {
      FindFromNone(s, p + 1);
    }
    if FindFrom(s, p).Some? {
      FindFromSome(s, p);
      var c := FindFrom(s, p).value;
      assert !NoLinkAt(s, c.pos);
    }
  }

  /** The scan from `p` returns the leftmost link at or after `p`. */
  lemma {:induction false} FindFromSome(s: string, p: nat)
    requires p <= |s|
    requires FindFrom(s, p).Some?
    ensures var c := FindFrom(s, p).value;
              && p <= c.pos <= |s|
              && LinkAt(s, c.pos, c.chat, c.digits)
              && forall q :: p <= q < c.pos ==> NoLinkAt(s, q)
    decreases |s| - p
  {
    MatchAtSpec(s, p);
    if p < |s| && MatchAt(s, p).None? {
      FindFromSome(s, p + 1);
      assert FindFrom(s, p) == FindFrom(s, p + 1);
      var c := FindFrom(s, p).value;
      forall q | p <= q < c.pos ensures NoLinkAt(s, q) {
        if q > p {
          assert p + 1 <= q < c.pos;
        }
      }
    } else {
      assert FindFrom(s, p) == MatchAt(s, p);
    }
  }

  /** The parser accepts exactly the texts that hold a link, and then
      returns the leftmost one: a non-empty chat identifier without '/', and
      the value of the digits that follow it. */
  lemma {:induction false} ParseLinkSpec(text: string)
    ensures ParseLink(text).None? <==> forall q :: 0 <= q <= |text| ==> NoLinkAt(text, q)
    ensures ParseLink(text).Some? ==>
              var c := FindFrom(text, 0).value;
              && LinkAt(text, c.pos, ParseLink(text).value.chat, c.digits)
              && ParseLink(text).value.messageId == DecimalValue(c.digits)
              && (forall q :: 0 <= q < c.pos ==> NoLinkAt(text, q))
    ensures ParseLink(text).Some? ==>
              var l := ParseLink(text).value;
              |l.chat| > 0 && forall k :: 0 <= k < |l.chat| ==> l.chat[k] != '/'
  {
    FindFromNone(text, 0);
    if FindFrom(text, 0).Some? {
      FindFromSome(text, 0);
    }
  }

  /** Reading back the decimal digits of `n` gives `n`. */
  lemma {:induction false} DecimalRoundTrip(n: nat)
    ensures DecimalValue(DecimalString(n)) == n
    decreases n
  {
    var last := [('0' as int + n % 10) as char];
    if n >= 10 {
      DecimalRoundTrip(n / 10);
      var r := DecimalString(n / 10) + last;
      assert r[..|r| - 1] == DecimalString(n / 10);
    }
  }

  /** The link at the front of `https://t.me/<chat>/<digits><rest>` sits
      right after the scheme. */
  lemma LeadingLinkAt(chat: string, digits: string, rest: string)
    requires |chat| > 0 && forall k :: 0 <= k < |chat| ==> chat[k] != '/'
    requires |digits| > 0 && forall k :: 0 <= k < |digits| ==> IsDigit(digits[k])
    requires rest == [] || !IsDigit(rest[0])
    ensures StartsAt("https://t.me/" + chat + "/" + digits + rest, 0, "https://")
    ensures LinkAt("https://t.me/" + chat + "/" + digits + rest, 8, chat, digits)
  {
    var tail := chat + "/" + digits + rest;
    var s := "https://t.me/" + tail;
    assert s == "https://t.me/" + chat + "/" + digits + rest;
    assert s[..8] == "https://" && s[8..13] == "t.me/" && s[13..] == tail;
    var e := 13 + |chat|;
    assert tail[..|chat|] == chat && tail[|chat|] == '/';
    assert tail[|chat| + 1..|chat| + 1 + |digits|] == digits;
    assert s[13..e] == chat;
    assert s[e + 1..e + 1 + |digits|] == digits;
    assert e + 1 + |digits| < |s| ==> s[e + 1 + |digits|] == rest[0];
  }

  /** A text that begins with `https://t.me/<chat>/<digits>` parses to
      that chat and the value of those digits, whatever follows them. */
  lemma {:induction false} ParseLinkLeading(chat: string, digits: string, rest: string)
    requires |chat| > 0 && forall k :: 0 <= k < |chat| ==> chat[k] != '/'
    requires |digits| > 0 && forall k :: 0 <= k < |digits| ==> IsDigit(digits[k])
    requires rest == [] || !IsDigit(rest[0])
    ensures ParseLink("https://t.me/" + chat + "/" + digits + rest) == Some(Link(chat, DecimalValue(digits)))
  {
    var s := "https://t.me/" + chat + "/" + digits + rest;
    LeadingLinkAt(chat, digits, rest);
    BodyAtSpec(s, 8, chat, digits);
    assert MatchAt(s, 0) == Some(Captures(8, chat, digits));
    assert FindFrom(s, 0) == MatchAt(s, 0);
  }

  /** A link written as `https://t.me/<chat>/<n>` parses back to `chat` and `n`. */
  lemma ParseLinkRoundTrip(chat: string, n: nat)
    requires |chat| > 0 && forall k :: 0 <= k < |chat| ==> chat[k] != '/'
    ensures ParseLink("https://t.me/" + chat + "/" + DecimalString(n)) == Some(Link(chat, n))
  {
    ParseLinkLeading(chat, DecimalString(n), "");
    assert "https://t.me/" + chat + "/" + DecimalString(n) + "" == "https://t.me/" + chat + "/" + DecimalString(n);
    DecimalRoundTrip(n);
  }

  /** A private-channel link `https://t.me/c/<channel>/<message>` is read
      with chat identifier "c" and the CHANNEL number as the message id:
      the pattern's first group is the first path segment. */
  lemma PrivateChannelLink(channel: nat, message: nat)
    ensures ParseLink("https://t.me/c/" + DecimalString(channel) + "/" + DecimalString(message))
            == Some(Link("c", channel))
  {
    var rest := "/" + DecimalString(message);
    ParseLinkLeading("c", DecimalString(channel), rest);
    assert "https://t.me/" + "c" + "/" + DecimalString(channel) + rest
        == "https://t.me/c/" + DecimalString(channel) + "/" + DecimalString(message);
    DecimalRoundTrip(channel);
  }

  /** A link with no message id, `https://t.me/<chat>`, is rejected. */
  lemma LinkWithoutIdRejected(chat: string)
    requires forall k :: 0 <= k < |chat| ==> chat[k] != '/'
    ensures ParseLink("https://t.me/" + chat) == None
  {
    var s := "https://t.me/" + chat;
    assert StartsAt(s, 0, "https://") by { assert s[0..8] == "https://"; }
    forall q | 0 <= q <= |s| ensures NoLinkAt(s, q) {
      if q < 8 {
        NoLinkInsideScheme(s, 0, "https://", q);
      } else {
        assert forall k :: 13 <= k < |s| ==> s[k] == chat[k - 13];
        forall c, d ensures !LinkAt(s, q, c, d) {
          LinkSlashAfterChat(s, q, c, d);
        }
      }
    }
    ParseLinkSpec(s);
  }

  lemma LinkSlashAfterChat(s: string, q: int, chat: string, digits: string)
    ensures LinkAt(s, q, chat, digits) ==> q + 5 + |chat| < |s| && s[q + 5 + |chat|] == '/'
  {
  }

}

=== FILE: login.dfy ===
/** The phone-login part of bot.py: the authentication fields of
    `TelethonManager` with the updates `connect_with_phone` and
    `verify_code` make to them, and the PHONE/CODE conversation that
    `login_command`, `phone_handler`, `code_handler` and `cancel_command`
    drive. Every MTProto call is an opaque outcome handed in by the caller. */
module Login {
  import opened Wrappers
  import opened Text

  /** The fields of the `TelethonManager` singleton that login touches.
      `hasClient` says whether `self.client` holds a client. */
  datatype Manager = Manager(
    hasClient: bool,
    isConnected: bool,
    phoneNumber: Option<string>,
    phoneCodeHash: Option<string>)

  /** The manager as `__init__` leaves it. */
  const Fresh := Manager(false, false, None, None)

  /** The reply a manager call hands back: `(success, message)`. */
  datatype Reply = Reply(success: bool, message: string)

  /** What `send_code_request` does: returns a code hash, or raises. */
  datatype CodeRequest = CodeSent(hash: string) | CodeRequestRaises(reason: string)

  /** The arguments `sign_in` is called with. */
  datatype SignIn = SignIn(phone: Option<string>, code: string, hash: string)

  const NoSession := "No active authentication session"

  /** `not self.phone_code_hash` is false: a non-empty hash is stored. */
  predicate HashPending(m: Manager) {
    m.phoneCodeHash.Some? && m.phoneCodeHash.value != ""
  }

  /** `connect_with_phone`: create the client if there is none (which
      `initOk` says succeeds or not), connect, record the phone number,
      request a code and record its hash. The phone number is recorded as
      soon as `connect` returns, before the code request. */
  function ConnectWithPhone(m: Manager, phone: string, initOk: bool, connect: Call, request: CodeRequest)
    : (r: (Manager, Reply))
    ensures r.1.success <==> (m.hasClient || initOk) && connect.Completes? && request.CodeSent?
    ensures r.1.success ==> r.0.phoneNumber == Some(phone) && r.0.phoneCodeHash == Some(request.hash)
    ensures !r.1.success ==> r.0.phoneCodeHash == m.phoneCodeHash
    ensures (m.hasClient || initOk) && connect.Completes? ==> r.0.phoneNumber == Some(phone)
    ensures !((m.hasClient || initOk) && connect.Completes?) ==> r.0.phoneNumber == m.phoneNumber
    ensures r.0.isConnected == m.isConnected
    ensures r.0.hasClient == (m.hasClient || initOk)
  {
    var m1 := if !m.hasClient && initOk then m.(hasClient := true) else m;
    if !m1.hasClient then
      (m1, Reply(false, "'NoneType' object has no attribute 'connect'"))
    else
      match connect
      case Raises(e) => (m1, Reply(false, e))
      case Completes =>
        var m2 := m1.(phoneNumber := Some(phone));
        match request
        case CodeRequestRaises(e) => (m2, Reply(false, e))
        case CodeSent(h) => (m2.(phoneCodeHash := Some(h)), Reply(true, "Code sent successfully"))
  }

  /** `verify_code`: with no client or no pending hash it refuses without
      calling the server; otherwise it signs in with the stored phone and
      hash, and only a sign-in that returns sets `is_connected`. */
  function VerifyCode(m: Manager, code: string, signIn: Call): (r: (Manager, Reply, Option<SignIn>))
    ensures r.2.None? <==> !m.hasClient || !HashPending(m)
    ensures r.2.None? ==> r.0 == m && r.1 == Reply(false, NoSession)
    ensures r.2.Some? ==> r.2.value == SignIn(m.phoneNumber, code, m.phoneCodeHash.value)
    ensures r.1.success <==> r.2.Some? && signIn.Completes?
    ensures r.0.isConnected <==> m.isConnected || r.1.success
    ensures r.0.(isConnected := m.isConnected) == m
  {
    if !m.hasClient || !HashPending(m) then
      (m, Reply(false, NoSession), None)
    else
      var request := SignIn(m.phoneNumber, code, m.phoneCodeHash.value);
      match signIn
      case Completes => (m.(isConnected := true), Reply(true, "Successfully authenticated"), Some(request))
      case Raises(e) => (m, Reply(false, e), Some(request))
  }

  // ---------------------------------------------------------------------
  // The conversation

  /** `PHONE`, `CODE` and `ConversationHandler.END`; END is also the state
      of a conversation that has not started. */
  datatype ConvState = Phone | Code | End

  /** What reaches the conversation: `/login`, `/cancel`, or a text that
      is not a command (`Filters.text & ~Filters.command`); other commands
      never reach the state handlers and are not events here. */
  datatype Event = LoginCommand | CancelCommand | TextMessage(text: string)

  /** The outcomes of the library calls one event may trigger, the last
      being the handler's reply to the user. */
  datatype Oracle = Oracle(initOk: bool, connect: Call, request: CodeRequest, signIn: Call, reply: Call)

  datatype Session = Session(conv: ConvState, manager: Manager)

  datatype Input = Input(event: Event, oracle: Oracle)

  const Start := Session(End, Fresh)

  /** `login_command`: a connected manager needs no login. */
  function LoginState(m: Manager): (r: ConvState)
    ensures r in {Phone, End}
    ensures r == Phone <==> !m.isConnected
  {
    if m.isConnected then End else Phone
  }

  /** `phone_handler`: the stripped text is the phone number. A reply that
      raises leaves the handler without a next state, so the conversation
      stays in PHONE, while the manager keeps what `connect_with_phone`
      stored. */
  function PhoneStep(m: Manager, text: string, o: Oracle): (r: Session)
    ensures r.conv == Phone <==> o.reply.Raises?
    ensures r.conv == Code <==>
              o.reply.Completes? && (m.hasClient || o.initOk) && o.connect.Completes? && o.request.CodeSent?
    ensures r.manager == ConnectWithPhone(m, Strip(text), o.initOk, o.connect, o.request).0
    ensures r.manager.isConnected == m.isConnected
  {
    var (m', reply) := ConnectWithPhone(m, Strip(text), o.initOk, o.connect, o.request);
    var next := if o.reply.Raises? then Phone else if reply.success then Code else End;
    Session(next, m')
  }

  /** `code_handler`: the stripped text is the code, and the conversation
      ends whatever the sign-in did, unless the reply raises, which leaves
      it in CODE. */
  function CodeStep(m: Manager, text: string, o: Oracle): (r: Session)
    ensures r.conv == if o.reply.Raises? then Code else End
    ensures r.manager.isConnected <==>
              m.isConnected || (m.hasClient && HashPending(m) && o.signIn.Completes?)
    ensures r.manager.(isConnected := m.isConnected) == m
  {
    var (m', _, _) := VerifyCode(m, Strip(text), o.signIn);
    Session(if o.reply.Raises? then Code else End, m')
  }

  /** One event as the conversation handler sees it. `/login` starts the
      conversation only when none is running (no re-entry); text while a
      conversation runs goes to the state's handler and text outside it is
      a transfer request, which leaves the manager alone; `/cancel` ends the
      conversation from any state. A handler whose reply raises returns no
      state, and the conversation stays where it was. */
  function Step(s: Session, e: Event, o: Oracle): (r: Session)
    ensures o.reply.Raises? ==> r.conv == s.conv
    ensures !e.TextMessage? || s.conv == End ==> r.manager == s.manager
    ensures e.CancelCommand? && o.reply.Completes? ==> r.conv == End
  {
    match e
    case CancelCommand => if o.reply.Raises? then s else s.(conv := End)
    case LoginCommand => if s.conv == End && o.reply.Completes? then s.(conv := LoginState(s.manager)) else s
    case TextMessage(t) =>
      match s.conv
      case Phone => PhoneStep(s.manager, t, o)
      case Code => CodeStep(s.manager, t, o)
      case End => s
  }

  /** The session after a sequence of inputs. */
  function Run(s: Session, inputs: seq<Input>): Session
    decreases |inputs|
  {
    if |inputs| == 0 then s
    else
      var last := inputs[|inputs| - 1];
      Step(Run(s, inputs[..|inputs| - 1]), last.event, last.oracle)
  }

  // ---------------------------------------------------------------------
  // Properties

  /** The shape of the conversation: it leaves END only for PHONE, on a
      `/login` that replies, by a manager that is not connected; it enters
      CODE only from PHONE on a code request that succeeds and a reply that
      goes out; a code message that gets its reply ends it; and a raising
      reply never moves it. */
  lemma Transitions(s: Session, e: Event, o: Oracle)
    ensures var s' := Step(s, e, o);
      && (s.conv == End && s'.conv != End <==>
            s.conv == End && e == LoginCommand && !s.manager.isConnected && o.reply.Completes?)
      && (s.conv == End && s'.conv != End ==> s'.conv == Phone)
      && (s'.conv == Code <==>
            || (s.conv == Code && (e == LoginCommand || o.reply.Raises?))
            || (s.conv == Phone && e.TextMessage? && o.reply.Completes?
                && (s.manager.hasClient || o.initOk) && o.connect.Completes? && o.request.CodeSent?))
      && (s.conv == Code && e.TextMessage? && o.reply.Completes? ==> s'.conv == End)
      && (o.reply.Raises? ==> s'.conv == s.conv)
  {
  }

  /** `is_connected` is only ever set, and only by a sign-in that returns,
      sent from the CODE state with a client and a pending hash. */
  lemma ConnectedOnlyBySignIn(s: Session, e: Event, o: Oracle)
    ensures s.manager.isConnected ==> Step(s, e, o).manager.isConnected
    ensures !s.manager.isConnected && Step(s, e, o).manager.isConnected ==>
              && s.conv == Code && e.TextMessage? && o.signIn.Completes?
              && s.manager.hasClient && HashPending(s.manager)
  {
  }

  /** What holds of every session the bot can reach: a stored hash comes
      with a client and a phone number, a CODE conversation has a stored
      hash, and a connected manager has a client. The stored phone need not
      be the one the hash was requested for outside CODE: a later phone
      whose code request raises replaces the phone and keeps the hash. */
  ghost predicate Valid(s: Session) {
    && (s.manager.phoneCodeHash.Some? ==> s.manager.hasClient && s.manager.phoneNumber.Some?)
    && (s.conv == Code ==> s.manager.phoneCodeHash.Some?)
    && (s.manager.isConnected ==> s.manager.hasClient)
  }

  /** Inside CODE the phone and the hash belong together: CODE is entered
      only by a phone message whose code request returned, which stores
      that phone with that hash, and neither changes while CODE lasts. */
  lemma CodePairsPhoneAndHash(s: Session, e: Event, o: Oracle)
    ensures var s' := Step(s, e, o);
      && (s.conv != Code && s'.conv == Code ==>
            && e.TextMessage? && o.request.CodeSent?
            && s'.manager.phoneNumber == Some(Strip(e.text))
            && s'.manager.phoneCodeHash == Some(o.request.hash))
      && (s.conv == Code && s'.conv == Code ==>
            && s'.manager.phoneNumber == s.manager.phoneNumber
            && s'.manager.phoneCodeHash == s.manager.phoneCodeHash)
  {
  }

  lemma StartValid()
    ensures Valid(Start)
  {
  }

  lemma StepKeepsValid(s: Session, e: Event, o: Oracle)
    requires Valid(s)
    ensures Valid(Step(s, e, o))
  {
    match e
    case CancelCommand =>
    case LoginCommand =>
    case TextMessage(t) =>
      var m := s.manager;
      match s.conv
      case Phone =>
        assert Step(s, e, o) == PhoneStep(m, t, o);
      case Code =>
        assert Step(s, e, o) == CodeStep(m, t, o);
      case End =>
  }

  /** Every session reached from the start is valid. */
  lemma {:induction false} RunKeepsValid(inputs: seq<Input>)
    ensures Valid(Run(Start, inputs))
    decreases |inputs|
  {
    if |inputs| > 0 {
      RunKeepsValid(inputs[..|inputs| - 1]);
      var last := inputs[|inputs| - 1];
      StepKeepsValid(Run(Start, inputs[..|inputs| - 1]), last.event, last.oracle);
    }
  }

  /** In a reachable session a sign-in is always sent with a phone number. */
  lemma SignInCarriesPhone(inputs: seq<Input>, text: string, signIn: Call)
    ensures var s := Run(Start, inputs);
            var r := VerifyCode(s.manager, Strip(text), signIn);
            r.2.Some? ==> r.2.value.phone.Some?
  {
    RunKeepsValid(inputs);
  }

  /** Input `k` of `inputs` is a code message answered by a sign-in that
      returned, while the session was waiting for a code with a hash pending. */
  ghost predicate SignedInAt(s: Session, inputs: seq<Input>, k: int)
    requires 0 <= k < |inputs|
  {
    var before := Run(s, inputs[..k]);
    && before.conv == Code
    && inputs[k].event.TextMessage?
    && inputs[k].oracle.signIn.Completes?
    && before.manager.hasClient && HashPending(before.manager)
  }

  /** A run that ends connected from a disconnected start contains a
      successful sign-in. */
  lemma {:induction false} ConnectedRunSignedIn(s: Session, inputs: seq<Input>)
    requires !s.manager.isConnected
    requires Run(s, inputs).manager.isConnected
    ensures exists k :: 0 <= k < |inputs| && SignedInAt(s, inputs, k)
    decreases |inputs|
  {
    var n := |inputs|;
    var prefix := inputs[..n - 1];
    var last := inputs[n - 1];
    ConnectedOnlyBySignIn(Run(s, prefix), last.event, last.oracle);
    if Run(s, prefix).manager.isConnected {
      ConnectedRunSignedIn(s, prefix);
      var k :| 0 <= k < |prefix| && SignedInAt(s, prefix, k);
      assert prefix[..k] == inputs[..k];
      assert SignedInAt(s, inputs, k);
    } else {
      assert inputs[..n - 1] == prefix;
      assert SignedInAt(s, inputs, n - 1);
    }
  }
}

=== FILE: text.dfy ===
/** The string primitives bot.py relies on: `str.strip()` and the substring
    test `needle in haystack`. Strings are sequences of Unicode scalar values,
    which is what a Python `str` holds. */
module Text {

  /** Python's `str.isspace()` for one character: the characters that
      `str.strip()` with no argument removes. */
  predicate IsSpace(c: char) {
    || ('\t' <= c <= '\r')                  // tab, line feed, vertical tab, form feed, carriage return
    || ('\U{1C}' <= c <= '\U{1F}')          // file, group, record and unit separators
    || c == ' '
    || c == '\U{85}' || c == '\U{A0}' || c == '\U{1680}'
    || ('\U{2000}' <= c <= '\U{200A}')
    || c == '\U{2028}' || c == '\U{2029}' || c == '\U{202F}' || c == '\U{205F}' || c == '\U{3000}'
  }

  /** The end of the run of white space that starts at `i`. */
  function SpaceEnd(s: string, i: nat): (j: nat)
    requires i <= |s|
    ensures i <= j <= |s|
    ensures forall k :: i <= k < j ==> IsSpace(s[k])
    ensures j < |s| ==> !IsSpace(s[j])
    decreases |s| - i
  {
    if i == |s| || !IsSpace(s[i]) then i else SpaceEnd(s, i + 1)
  }

  /** The start of the run of white space that ends at `j`, not going
      below `lo`. */
  function SpaceStart(s: string, lo: nat, j: nat): (i: nat)
    requires lo <= j <= |s|
    ensures lo <= i <= j
    ensures forall k :: i <= k < j ==> IsSpace(s[k])
    ensures i > lo ==> !IsSpace(s[i - 1])
    decreases j - lo
  {
    if j == lo || !IsSpace(s[j - 1]) then j else SpaceStart(s, lo, j - 1)
  }

  /** `r` is what is left of `s` once a white-space prefix of length `i`
      and a white-space suffix are cut off. */
  predicate PaddedAt(s: string, r: string, i: int) {
    && 0 <= i <= |s| - |r|
    && s[i..i + |r|] == r
    && (forall k :: 0 <= k < i ==> IsSpace(s[k]))
    && (forall k :: i + |r| <= k < |s| ==> IsSpace(s[k]))
  }

  /** Python's `s.strip()`: the white space at both ends removed, and
      nothing else. */
  function Strip(s: string): (r: string)
    ensures exists i :: PaddedAt(s, r, i)
    ensures r == [] || (!IsSpace(r[0]) && !IsSpace(r[|r| - 1]))
  {
    var i := SpaceEnd(s, 0);
    var j := SpaceStart(s, i, |s|);
    assert PaddedAt(s, s[i..j], i);
    s[i..j]
  }

  /** A text that neither starts nor ends with white space is its own strip. */
  lemma StripUnpadded(s: string)
    requires s == [] || (!IsSpace(s[0]) && !IsSpace(s[|s| - 1]))
    ensures Strip(s) == s
  {
    assert SpaceEnd(s, 0) == 0;
    assert SpaceStart(s, 0, |s|) == |s|;
    assert s[0..|s|] == s;
  }

  /** `pat` occurs in `s` starting at index `i`. */
  predicate OccursAt(s: string, pat: string, i: int) {
    0 <= i && i + |pat| <= |s| && s[i..i + |pat|] == pat
  }

  /** The meaning of Python's `pat in s` for strings. */
  ghost predicate IsSubstring(pat: string, s: string) {
    exists i :: OccursAt(s, pat, i)
  }

  /** A left-to-right search for `pat` in `s`. */
  function Contains(s: string, pat: string): bool
    decreases |s|
  {
    if |pat| > |s| then false
    else if s[..|pat|] == pat then true
    else Contains(s[1..], pat)
  }

  /** The search finds `pat` exactly when `pat` occurs somewhere in `s`. */
  lemma {:induction false} ContainsIsSubstring(s: string, pat: string)
    ensures Contains(s, pat) <==> IsSubstring(pat, s)
    decreases |s|
  {
    if |pat| > |s| {
      assert forall i :: !OccursAt(s, pat, i);
    } else if s[..|pat|] == pat {
      assert OccursAt(s, pat, 0);
    } else {
      ContainsIsSubstring(s[1..], pat);
      if IsSubstring(pat, s[1..]) {
        var i :| OccursAt(s[1..], pat, i);
        OccursShift(s, pat, i);
      }
      if IsSubstring(pat, s) {
        var i :| OccursAt(s, pat, i);
        assert i != 0;
        OccursShift(s, pat, i - 1);
      }
    }
  }

  /** An occurrence in the tail of `s` is an occurrence in `s` one place later. */
  lemma OccursShift(s: string, pat: string, i: int)
    requires |s| > 0 && 0 <= i
    ensures OccursAt(s[1..], pat, i) <==> OccursAt(s, pat, i + 1)
  {
    if i + |pat| <= |s| - 1 {
      assert s[1..][i..i + |pat|] == s[i + 1..i + 1 + |pat|];
    }
  }
}

=== FILE: transfer.dfy ===
/** The transfer pipeline of bot.py: the size guard and staging in
    `download_media`, the caption truncation and clean-up in
    `process_media_download`, the endpoint choice in `upload_large_file`,
    and the link dispatch of `handle_message`. The file system is the set
    of paths that exist; every library call is an opaque outcome. */
module Transfer {
  import opened Wrappers
  import opened Text
  import opened Classifier
  import opened Links

  /** `MAX_FILE_SIZE`: 1 GiB. */
  const MaxFileSize: nat := 1024 * 1024 * 1024

  /** Files above 50 MiB get a "this may take a while" notice before upload. */
  const LargeUploadSize: nat := 50 * 1024 * 1024

  /** The Bot API's caption limit the pipeline truncates to. */
  const CaptionLimit: nat := 1024

  type Path = string

  // ---------------------------------------------------------------------
  // Guards

  /** `caption[:1024] if caption else ""`: at most 1024 characters, taken
      from the front. */
  function TruncateCaption(caption: string): (r: string)
    ensures |r| == if |caption| < CaptionLimit then |caption| else CaptionLimit
    ensures r == caption[..|r|]
  {
    if caption != "" then
      if |caption| <= CaptionLimit then caption else caption[..CaptionLimit]
    else ""
  }

  /** A 2000-character caption is cut to exactly its first 1024 characters. */
  lemma LongCaptionCut(caption: string)
    requires |caption| == 2000
    ensures TruncateCaption(caption) == caption[..1024]
  {
  }

  /** The Bot API call `upload_large_file` makes; each carries the caption. */
  datatype UploadCall =
    | SendPhoto(caption: string)
    | SendVideo(caption: string, supportsStreaming: bool)
    | SendDocument(caption: string)

  datatype UploadPlan = UploadPlan(announceLarge: bool, call: UploadCall)

  /** `upload_large_file` before its outcome is known: the large-file
      notice, then the endpoint chosen by the upload kind, any kind other
      than "photo" and "video" going to `send_document`. */
  function PlanUpload(fileSize: nat, fileType: string, caption: string): (p: UploadPlan)
    ensures p.announceLarge <==> fileSize > LargeUploadSize
    ensures p.call.SendPhoto? <==> fileType == "photo"
    ensures p.call.SendVideo? <==> fileType == "video"
    ensures p.call.SendVideo? ==> p.call.supportsStreaming
    ensures p.call.caption == caption
  {
    var call :=
      if fileType == "photo" then SendPhoto(caption)
      else if fileType == "video" then SendVideo(caption, true)
      else SendDocument(caption);
    UploadPlan(fileSize > LargeUploadSize, call)
  }

  /** Combined with the classifier: a photo goes to `send_photo`, a video
      (including a document with a video MIME type) to `send_video` with
      streaming, and everything else to `send_document`. */
  lemma UploadEndpointMatchesMedia(m: Media, fileSize: nat, caption: string)
    ensures var call := PlanUpload(fileSize, MediaType(m), caption).call;
      && (call.SendPhoto? <==> m.MediaPhoto?)
      && (call.SendVideo? <==> IsVideo(m))
      && (call.SendDocument? <==> !m.MediaPhoto? && !IsVideo(m))
      && (call.SendVideo? ==> call.supportsStreaming)
  {
    MediaTypeSpec(m);
  }

  // ---------------------------------------------------------------------
  // Download

  datatype Message = Message(media: Option<Media>, text: Option<string>)

  /** What `get_messages` does: returns a message, returns None, or raises. */
  datatype FetchOutcome = Found(message: Message) | NotFound | FetchRaises(reason: string)

  /** What `client.download_media` followed by `os.path.getsize` does:
      yields the size of the written file, or raises (a failed transfer,
      or a media kind the client does not download, for which it returns
      None and `getsize(None)` raises). */
  datatype WriteOutcome = Written(size: nat) | WriteRaises(reason: string)

  datatype DownloadError = MediaNotFound | TooLarge(size: nat) | DownloadRaised(reason: string)

  datatype DownloadResult =
    | Downloaded(path: Path, size: nat, fileType: string, caption: string, extension: string)
    | DownloadErr(error: DownloadError)

  /** The result of `download_media` and the paths that exist afterwards. */
  datatype DownloadStep = DownloadStep(result: DownloadResult, files: set<Path>)

  /** The checks `download_media` makes before staging a file. */
  datatype Admission = Rejected(error: DownloadError) | Admitted(media: Media, text: Option<string>)

  /** The checks before staging: the message and its media must exist, and
      the advertised size must not exceed the ceiling. */
  function Admit(fetch: FetchOutcome): (r: Admission)
    ensures r.Admitted? <==>
              fetch.Found? && fetch.message.media.Some?
              && AdvertisedSize(fetch.message.media.value) <= MaxFileSize
    ensures r.Admitted? ==> r.media == fetch.message.media.value && r.text == fetch.message.text
    ensures r.Rejected? && r.error.TooLarge? <==>
              fetch.Found? && fetch.message.media.Some?
              && AdvertisedSize(fetch.message.media.value) > MaxFileSize
    ensures r.Rejected? && r.error.TooLarge? ==> r.error.size == AdvertisedSize(fetch.message.media.value)
  {
    match fetch
    case FetchRaises(e) => Rejected(DownloadRaised(e))
    case NotFound => Rejected(MediaNotFound)
    case Found(msg) =>
      match msg.media
      case None => Rejected(MediaNotFound)
      case Some(media) =>
        var size := AdvertisedSize(media);
        if size > MaxFileSize then Rejected(TooLarge(size)) else Admitted(media, msg.text)
  }

  /** The ceiling is inclusive: a document of exactly 1 GiB is admitted
      and one a byte larger is refused. */
  lemma SizeCeilingBoundary(mime: Option<string>, text: Option<string>)
    ensures Admit(Found(Message(Some(MediaDocument(mime, 1073741824)), text))).Admitted?
    ensures Admit(Found(Message(Some(MediaDocument(mime, 1073741825)), text)))
            == Rejected(TooLarge(1073741825))
  {
  }

  /** The guard only sees the size a document or a photo advertises: a
      video sent as such, any other kind, and a photo without size
      entries always pass it, however large the file turns out to be. */
  lemma SizelessMediaPassesGuard(m: Media, text: Option<string>)
    requires m.MediaVideo? || m.MediaOther? || (m.MediaPhoto? && |m.sizes| == 0)
    ensures Admit(Found(Message(Some(m), text))) == Admitted(m, text)
  {
  }

  /** What a successful download reports for an admitted attachment. */
  function Report(media: Media, text: Option<string>, staged: Path, size: nat): DownloadResult {
    Downloaded(staged, size, MediaType(media), text.GetOr(""), FileExtension(media))
  }

  /** `download_media` as written: once admitted, the temporary file is
      created (`delete=False`) and then written; if creating it raises,
      nothing is on disk; if writing raises, the error is returned and the
      file is left where it is. */
  function DownloadMediaAsWritten(fetch: FetchOutcome, stage: Call, staged: Path, write: WriteOutcome, files: set<Path>)
    : (r: DownloadStep)
    ensures r.result.Downloaded? <==> Admit(fetch).Admitted? && stage.Completes? && write.Written?
    ensures r.files == if Admit(fetch).Admitted? && stage.Completes? then files + {staged} else files
  {
    match Admit(fetch)
    case Rejected(e) => DownloadStep(DownloadErr(e), files)
    case Admitted(media, text) =>
      match stage
      case Raises(e) => DownloadStep(DownloadErr(DownloadRaised(e)), files)
      case Completes =>
        var created := files + {staged};
        match write
        case WriteRaises(e) => DownloadStep(DownloadErr(DownloadRaised(e)), created)
        case Written(size) => DownloadStep(Report(media, text, staged, size), created)
  }

  /** `download_media` with the staged file removed when writing raises,
      so that only a successful download leaves a file behind. */
  function DownloadMedia(fetch: FetchOutcome, stage: Call, staged: Path, write: WriteOutcome, files: set<Path>)
    : (r: DownloadStep)
    ensures r.result.Downloaded? <==> Admit(fetch).Admitted? && stage.Completes? && write.Written?
    ensures r.result.Downloaded? ==> r.result.path == staged && r.files == files + {staged}
    ensures r.result.DownloadErr? ==> r.files <= files && files - {staged} <= r.files
  {
    match Admit(fetch)
    case Rejected(e) => DownloadStep(DownloadErr(e), files)
    case Admitted(media, text) =>
      match stage
      case Raises(e) => DownloadStep(DownloadErr(DownloadRaised(e)), files)
      case Completes =>
        var created := files + {staged};
        match write
        case WriteRaises(e) => DownloadStep(DownloadErr(DownloadRaised(e)), created - {staged})
        case Written(size) => DownloadStep(Report(media, text, staged, size), created)
  }

  // ---------------------------------------------------------------------
  // Processing

  /** The opaque outcomes one transfer meets: the "Starting download"
      reply sent before anything is fetched, the fetch, the creation of
      the temporary file and the name it gets, the write, the
      "Downloaded ... Uploading now" status edit, and `upload_large_file`
      as a whole (its large-file notice and its `send_*` call: when the
      notice raises, nothing is sent and the upload fails). */
  datatype Env = Env(startReply: Call, fetch: FetchOutcome, stage: Call, staged: Path, write: WriteOutcome,
                     progressEdit: Call, upload: Call)

  datatype Outcome =
    | InvalidLink
    | NotLoggedIn
    | DownloadFailed(error: DownloadError)
    | Delivered(size: nat)
    | UploadFailed(reason: string)
    | Crashed(reason: string)

  /** How a request ended, which message was fetched, the plan
      `upload_large_file` was invoked with (its notice and its `send_*`
      call, the latter skipped when the notice raises), and the paths that
      exist afterwards. */
  datatype Processed = Processed(outcome: Outcome, requested: Option<Link>, upload: Option<UploadPlan>, files: set<Path>)

  /** `process_media_download` after `download_media` returned. The file
      is removed after the upload whatever its outcome, and on the
      exception path that a failing status edit takes. */
  function Deliver(link: Link, step: DownloadStep, progressEdit: Call, upload: Call): (r: Processed)
    ensures r.requested == Some(link)
    ensures r.files == if step.result.Downloaded? then step.files - {step.result.path} else step.files
    ensures r.upload.Some? <==> step.result.Downloaded? && progressEdit.Completes?
    ensures r.outcome.Delivered? <==> r.upload.Some? && upload.Completes?
    ensures r.outcome.Delivered? ==> r.outcome.size == step.result.size
    ensures r.outcome.DownloadFailed? <==> step.result.DownloadErr?
  {
    match step.result
    case DownloadErr(e) => Processed(DownloadFailed(e), Some(link), None, step.files)
    case Downloaded(path, size, fileType, text, _) =>
      var cleaned := step.files - {path};
      match progressEdit
      case Raises(e) => Processed(Crashed(e), Some(link), None, cleaned)
      case Completes =>
        var plan := PlanUpload(size, fileType, TruncateCaption(text));
        var outcome := if upload.Completes? then Delivered(size) else UploadFailed(upload.reason);
        Processed(outcome, Some(link), Some(plan), cleaned)
  }

  /** The request gets as far as invoking `upload_large_file`. */
  predicate ReachesUpload(connected: bool, env: Env) {
    && connected && env.startReply.Completes? && Admit(env.fetch).Admitted?
    && env.stage.Completes? && env.write.Written? && env.progressEdit.Completes?
  }

  /** `process_media_download` with the download clean-up in place: no
      staged file outlives the request, and no other file is touched. */
  function ProcessMediaDownload(connected: bool, link: Link, env: Env, files: set<Path>): (r: Processed)
    ensures r.requested == if connected && env.startReply.Completes? then Some(link) else None
    ensures env.staged !in files ==> r.files == files
    ensures r.files <= files && files - {env.staged} <= r.files
    ensures r.upload.Some? <==> ReachesUpload(connected, env)
    ensures r.outcome.Delivered? <==> ReachesUpload(connected, env) && env.upload.Completes?
  {
    if !connected then Processed(NotLoggedIn, None, None, files)
    else match env.startReply
      case Raises(e) => Processed(Crashed(e), None, None, files)
      case Completes =>
        Deliver(link, DownloadMedia(env.fetch, env.stage, env.staged, env.write, files), env.progressEdit, env.upload)
  }

  /** `process_media_download` as written, on top of `download_media` as
      written: the staged file is removed on every path after a
      successful download, and left behind when writing raises. */
  function ProcessMediaDownloadAsWritten(connected: bool, link: Link, env: Env, files: set<Path>): (r: Processed)
    ensures r.requested == if connected && env.startReply.Completes? then Some(link) else None
    ensures r.upload.Some? <==> ReachesUpload(connected, env)
    ensures (connected && env.startReply.Completes? && Admit(env.fetch).Admitted? && env.stage.Completes?
             && env.write.Written?) ==> env.staged !in r.files
    ensures env.staged !in files ==>
              r.files == if connected && env.startReply.Completes? && Admit(env.fetch).Admitted? && env.stage.Completes?
                            && env.write.WriteRaises?
                         then files + {env.staged} else files
  {
    if !connected then Processed(NotLoggedIn, None, None, files)
    else match env.startReply
      case Raises(e) => Processed(Crashed(e), None, None, files)
      case Completes =>
        Deliver(link, DownloadMediaAsWritten(env.fetch, env.stage, env.staged, env.write, files), env.progressEdit, env.upload)
  }

  /** Whatever the upload did, an attempted upload goes to the endpoint of
      the attachment's kind with the message text cut to 1024 characters
      from its front; a missing text gives an empty caption. */
  lemma UploadCarriesMessage(connected: bool, link: Link, env: Env, files: set<Path>)
    requires ReachesUpload(connected, env)
    ensures var r := ProcessMediaDownload(connected, link, env, files);
            var media := env.fetch.message.media.value;
            var text := env.fetch.message.text.GetOr("");
            var call := r.upload.value.call;
      && (call.SendPhoto? <==> media.MediaPhoto?)
      && (call.SendVideo? <==> IsVideo(media))
      && (call.SendDocument? <==> !media.MediaPhoto? && !IsVideo(media))
      && |call.caption| <= CaptionLimit
      && call.caption == text[..|call.caption|]
      && (|text| <= CaptionLimit ==> call.caption == text)
      && r.upload.value.announceLarge == (env.write.size > LargeUploadSize)
  {
    var media := env.fetch.message.media.value;
    var text := env.fetch.message.text.GetOr("");
    UploadEndpointMatchesMedia(media, env.write.size, TruncateCaption(text));
  }

  /** The staged file of `download_media` as written survives a write that
      raises: a geo point (or a web-page preview carrying neither a photo
      nor a document) passes every check, the client returns None for it,
      `getsize(None)` raises, and the empty temporary file stays on disk.
      Called directly, `download_media` leaks it. Through
      `process_media_download` the leak is reached once the "Starting
      download" reply goes out, that is, with the await on that reply
      removed; as written, the request stops at that reply first. */
  lemma StagedFileLeaksOnWriteFailure()
    ensures var fetch := Found(Message(Some(MediaOther), None));
            var write := WriteRaises("stat: path should be string, bytes, os.PathLike or integer, not NoneType");
            var step := DownloadMediaAsWritten(fetch, Completes, "/tmp/tmpq1w2e3.bin", write, {});
            step.result.DownloadErr? && step.files == {"/tmp/tmpq1w2e3.bin"}
    ensures var env := Env(Completes, Found(Message(Some(MediaOther), None)), Completes, "/tmp/tmpq1w2e3.bin",
                           WriteRaises("stat: path should be string, bytes, os.PathLike or integer, not NoneType"),
                           Completes, Completes);
            var r := ProcessMediaDownloadAsWritten(true, Link("news", 42), env, {});
            r.outcome.DownloadFailed? && r.files == {"/tmp/tmpq1w2e3.bin"}
  {
  }

  // ---------------------------------------------------------------------
  // Message dispatch

  /** `handle_message`: the stripped text is searched for a link; without
      one the request is refused before anything is fetched, otherwise the
      first link found is processed. */
  function HandleMessage(text: string, connected: bool, env: Env, files: set<Path>): (r: Processed)
    ensures ParseLink(Strip(text)).None? ==>
              r == Processed(InvalidLink, None, None, files)
    ensures r.requested == if connected && env.startReply.Completes? then ParseLink(Strip(text)) else None
    ensures env.staged !in files ==> r.files == files
    ensures r.upload.Some? <==> ParseLink(Strip(text)).Some? && ReachesUpload(connected, env)
  {
    match ParseLink(Strip(text))
    case None => Processed(InvalidLink, None, None, files)
    case Some(link) => ProcessMediaDownload(connected, link, env, files)
  }

  /** With every reply, the fetch, the creation and the write of the
      temporary file, the status edit and the upload going through, a message holding a link to an admitted
      attachment is delivered, and the file is gone afterwards. */
  lemma HandleMessageDelivers(text: string, env: Env, files: set<Path>)
    requires ParseLink(Strip(text)).Some?
    requires env.startReply.Completes? && env.progressEdit.Completes? && env.upload.Completes?
    requires Admit(env.fetch).Admitted? && env.stage.Completes? && env.write.Written?
    ensures var r := HandleMessage(text, true, env, files);
      && r.outcome == Delivered(env.write.size)
      && r.requested == ParseLink(Strip(text))
      && env.staged !in r.files
  {
  }

  /** What awaiting `reply_text` of the synchronous python-telegram-bot 13
      API raises: the call returns a `Message`, which is not awaitable. */
  const AwaitedSyncReply: Call := Raises("object Message can't be used in 'await' expression")

  /** `handle_message` as written: `process_media_download` awaits the
      "Starting download" reply, so a logged-in request always ends in the
      exception handler before anything is fetched. */
  function HandleMessageAsWritten(text: string, connected: bool, env: Env, files: set<Path>): (r: Processed)
    ensures r.requested.None? && r.upload.None? && !r.outcome.Delivered?
    ensures r.files == files
  {
    HandleMessage(text, connected, env.(startReply := AwaitedSyncReply), files)
  }

  /** A logged-in request for `https://t.me/news/42` crashes on the first
      reply and never reaches the fetch. */
  lemma AwaitedReplyBlocksRequest(env: Env, files: set<Path>)
    ensures HandleMessageAsWritten("https://t.me/news/42", true, env, files)
            == Processed(Crashed(AwaitedSyncReply.reason), None, None, files)
  {
    var text := "https://t.me/news/42";
    StripUnpadded(text);
    ParseLinkLeading("news", "42", "");
    assert "https://t.me/" + "news" + "/" + "42" + "" == text;
    assert ParseLink(Strip(text)).Some?;
  }
}

=== FILE: wrappers.dfy ===
/** Small value types shared by the rest of the model. */
module Wrappers {

  /** A value that may be absent: Python's `None` versus a present value. */
  datatype Option<+T> = None | Some(value: T) {

    /** The present value, or `default` when absent (Python's `x or default` for a non-empty x). */
    function GetOr(default: T): T {
      match this
      case Some(v) => v
      case None => default
    }
  }

  /** The observable outcome of a call into a library the model cannot see
      (the MTProto client, the Bot API, the file system): either it returns,
      or it raises an exception whose text is `reason`. */
  datatype Call = Completes | Raises(reason: string)
}
